=== FILE: README.md ===
# Task queues of small-tornado-tools, modelled in Dafny

This project models the scheduling bookkeeping of `queue.ts`:

- `MinIntervalQueue` paces launch moments. It keeps a FIFO of launch actions. It launches one action, waits a fixed interval and then launches the next. A synchronous throw skips the wait. Destroying it stops all further launches.
- `ConcurrencyTaskQueue` admits keyed tasks from a waiting queue into a main processing queue of bounded size. With `noRepeat` it drops a task whose key it already tracks. Each admitted task is handed to an owned `MinIntervalQueue` as a wrapper. When the task settles, the wrapper removes the task from main and from the supplement, records its key in the history and admits again. An escalation timer, armed when an admission leaves tasks waiting behind a full main queue, later moves the oldest main task into a bounded supplement queue. That frees a main slot.
- `spliceBy` removes every matching element of an array by scanning from the back. It returns the removed elements.

Each queue is an immutable datatype, and each event is a pure function:

- `splice.dfy`: `spliceBy` as a function, and as a loop on a local sequence.
- `min_interval_queue.dfy`: `MinIntervalQueue`.
- `concurrency_queue.dfy`: `ConcurrencyTaskQueue`.
- `concurrency_properties.dfy`: the invariant that every event preserves, and properties over whole traces.
- `concurrency_scenarios.dfy`: single submissions and a worked trace.

Time is replaced by events:

- The `sleep` after a launch becomes an `Elapsed` / `Interval` event.
- The escalation timer's callback becomes `TimerFires`.
- The settling of a task's promise becomes `Complete(key)`.

Success and failure of a task are indistinguishable to the bookkeeping.

## Model

| member | source | states |
|---|---|---|
| Splice.SpliceBy | queue.ts:242-253 | the array keeps, in their original order, exactly the elements the condition rejects; the result holds the accepted elements in reverse of their original order |
| Splice.SpliceByInPlace | queue.ts:242-253 | the backward loop that splices one index at a time ends with the same array and result as the functional scan, and so with the same filtered and reversed outputs |
| Splice.SpliceByPartitions | queue.ts:242-253 | no element is lost or duplicated: kept plus removed is a rearrangement of the input |
| Splice.SpliceByIdempotent | queue.ts:242-253 | running spliceBy again with the same condition on what it kept removes nothing |
| Splice.SelectMember | queue.ts:242-253 | an element is kept by the filter exactly when it was present and the condition gives the wanted answer on it |
| MinInterval.Execute | queue.ts:24-44 | launches only take items from the front, in order; a destroyed queue does nothing; a live queue never stays idle with items pending; every item launched in one call except the last threw synchronously; the queue is left busy exactly when its last launch did not throw |
| MinInterval.AddTask | queue.ts:15-21 | the item joins the tail; while a launch is current, or after destroy, nothing else changes; an idle live queue launches at once |
| MinInterval.Init | queue.ts:11-13 | a new pacing queue is idle, alive and empty, with nothing launched |
| MinInterval.Elapsed | queue.ts:32-42 | the end of an interval resumes the drain: a busy live queue with items pending launches its head next, in FIFO order, and is left busy or empty; it launches more than one item only when the earlier ones threw; the queue stays busy only after a new launch that did not throw, so a busy queue with nothing pending becomes idle; with no launch current it changes nothing |
| MinInterval.StopAndDestroy | queue.ts:47-51 | the queue becomes destroyed, idle and empty; the launch log is kept |
| MinInterval.DestroyedLaunchesNothing | queue.ts:25-27 | once destroyed, no event sequence launches anything more or revives the queue |
| MinInterval.LaunchesAreFifo | queue.ts:15-16 | over any trace, the launch log is a prefix of the pending items followed by every item added since, in `addTask` order |
| MinInterval.ExecuteKeepsAccount | queue.ts:29-42 | from an idle queue, one execute either makes one non-throwing launch and ends busy, or launches only throwing items and stays idle |
| MinInterval.LaunchSpacing | queue.ts:32-42 | over any trace, the non-throwing launches are at most the elapsed intervals plus one for a queue that started idle |
| MinInterval.LaunchSpacingQuiet | queue.ts:32-34 | when no item throws, a fresh queue launches at most one item more than the number of intervals that elapsed |
| Concurrency.Init | queue.ts:111-125 | a new queue keeps the given options, has empty waiting, main, supplement and history, no timer, normal status, and an idle, empty, alive pacing queue |
| Concurrency.AllProcessingTasks | queue.ts:98-100 | the processing tasks are the supplement followed by main, and a task is processing exactly when it is in one of the two |
| Concurrency.IsRepeat | queue.ts:153-158 | a key is a repeat exactly when some tracked task, processing or waiting, has that key |
| ConcurrencyProperties.IsRepeatFindsTrackedKey | queue.ts:155 | the duplicate check holds exactly when some task of the processing tasks or of waiting carries the key |
| ConcurrencyProperties.InitValid | queue.ts:111-125 | a freshly constructed queue already satisfies the invariant that every event preserves |
| Concurrency.HandleSupplyQueue | queue.ts:215-217 | a timer is armed afterwards; a new host timer is set only when none was armed, so an armed timer is never doubled |
| Concurrency.Execute | queue.ts:167-193 | at most one task is admitted, and only when alive, with a waiting task and room in main; it moves from the head of waiting to the tail of main, any armed timer is replaced by one armed exactly when tasks still wait behind a full main, and its wrapper goes to the pacing queue; otherwise nothing changes; the order of all tracked tasks never changes |
| Concurrency.AddTask | queue.ts:148-164 | after destroy, or under noRepeat with a key already waiting or processing, nothing changes; otherwise the task is appended after every tracked task and `execute` runs: with room in main the oldest waiting task moves to main's tail, its wrapper goes to the pacing queue and the timer is re-armed exactly when tasks still wait behind a full main, with the host-timer count kept matching; with main full only waiting changes |
| Concurrency.TimerFires | queue.ts:218-229 | firing always disarms; with room in the supplement and a non-empty main, the oldest main task moves to the supplement's tail, which stays within its capacity, and the freed slot takes the next waiting task, whose wrapper goes to the pacing queue, with the timer re-armed exactly when tasks still wait behind a full main; with nobody waiting nothing is launched and the timer stays disarmed; otherwise only the timer changes |
| Concurrency.Retire | queue.ts:202-206 | every entry keyed k leaves main and the supplement, others keep their order; waiting and timer are untouched; k is appended once to the history |
| Concurrency.Complete | queue.ts:195-209 | the key is appended once to the history whatever the status; the supplement loses exactly the entries with that key; main keeps the retired entries as a prefix and gains at most one admitted task; waiting loses at most its head; `execute` then runs, so when the retirement leaves room the oldest waiting task moves to main's tail, its wrapper goes to the pacing queue and the timer is re-armed exactly when tasks still wait behind a full main; otherwise the state is exactly the retired one |
| Concurrency.RemoveWaitingTaskNotInKeys | queue.ts:132-134 | waiting keeps, in order, exactly the tasks whose key is listed; nothing else changes |
| Concurrency.StopAndDestroy | queue.ts:136-146 | the queue is destroyed with all three queues empty, the timer disarmed and its host timer cleared; the history is kept and the pacing queue is destroyed |
| Concurrency.IntervalElapses | queue.ts:32-42 | resuming the pacing queue changes no bookkeeping; since a wrapper never throws synchronously, a busy live pacing queue with wrappers pending launches exactly the next one and waits again; a busy one with nothing pending becomes idle; an idle one changes nothing |
| ConcurrencyProperties.AppendFreshKey | queue.ts:153-161 | appending a task whose key is untracked keeps all tracked keys distinct |
| ConcurrencyProperties.RetireShrinksKeys | queue.ts:202-204 | completion only removes tracked keys, never adds one |
| ConcurrencyProperties.RetireRemovesExactlyKey | queue.ts:202-204 | a task stays in main or the supplement after completion of k exactly when its key is not k; waiting is unchanged |
| ConcurrencyProperties.RemoveWaitingKeepsExactlyListed | queue.ts:132-134 | a task stays waiting exactly when it was waiting and its key is listed; main and the supplement are unchanged |
| ConcurrencyProperties.StepKeepsValid | queue.ts:136-229 | every event keeps main within capacity, the supplement within its capacity, at most one pending host timer matching the armed flag, an empty timer-less queue once destroyed, and distinct keys under noRepeat |
| ConcurrencyProperties.RunKeepsValid | queue.ts:136-229 | the invariant holds after any sequence of events |
| ConcurrencyProperties.ReachableQueueBounds | queue.ts:178-193 | from the constructor, after any events, main and the supplement stay within their capacities, at most one escalation timer is pending, and noRepeat keeps keys distinct |
| ConcurrencyProperties.HistoryRecordsCompletions | queue.ts:206 | the history only grows, and grows by exactly the keys of the completions delivered, in order, regardless of status |
| ConcurrencyProperties.HistoryAfterDestroy | queue.ts:136-146 | after destroy the history still grows by each later completion |
| ConcurrencyProperties.DestroyIsTerminal | queue.ts:148-151 | after destroy, status stays destroyed, the three queues stay empty, no timer is armed and nothing more is launched |
| ConcurrencyScenarios.SubmitWithRoomIsAdmitted | queue.ts:175-183 | a task submitted with nobody waiting and room in main is admitted at once and arms no timer |
| ConcurrencyScenarios.SubmitToFullMainOnlyWaits | queue.ts:175-178 | a task submitted while main is full only joins the waiting queue; no timer is armed |
| ConcurrencyScenarios.EscalationScenario | queue.ts:178-229 | with capacity 2 and supplement 1, after A,B,C,D: A,B in main, C,D waiting, no timer; after A settles: B,C in main, D waiting, timer armed; after it fires: B in the supplement, C,D in main |
| ConcurrencyScenarios.DuplicateWhileWaitingIsDropped | queue.ts:153-158 | under noRepeat a second task with a waiting task's key is dropped |

## Behaviour of the code worth knowing

The model follows the code in each of these cases.

- `execute` admits at most one task per call. Line 178 is an `if`, not a loop that fills every free slot.
- The field comments at lines 62 and 85 say a main task moves to the supplement once tasks have waited past the threshold while main is full. The timer that measures this wait is armed only inside an admission, and only when that admission leaves tasks waiting behind a full main queue (lines 190-193). Tasks that arrive while main is already full arm nothing. So in the A,B,C,D scenario with capacity 2, C and D wait with no timer until a task settles. `ConcurrencyScenarios.EscalationScenario` shows this.
- The history is not frozen by a destroy. The completion wrapper does not check the status (lines 202-208), so a task launched before the destroy still appends its key when it settles (`ConcurrencyProperties.HistoryAfterDestroy`).
- `MinIntervalQueue.addTask` does not check the status. After a destroy, items still accumulate, but none is launched.

## Left out

- Real time is not modelled: `sleep`, `window.setTimeout` and `window.clearTimeout` are replaced by events. `useSupplmentalWaitingTime`, `processingMinInterval` and `minInterval` are durations only, so they do not appear. Host timers are a count (`timersPending`).
- A task's `func` and its promise are not modelled. Its settling is the `Complete(key)` event, and success and failure are treated alike. The model lets that event name any key. Only launched tasks settle in the program.
- `console.log` of caught errors is left out because it is I/O.
- The reactive `splice` a Vue array may substitute is left out; plain sequence removal is modelled.
- Concurrency.HandleSupplyQueue: only its calls from `execute` are modelled. The method is public (line 215) and does not check the status (line 217), so an outside call after a destroy would still arm a timer; no event calls it directly, and `ConcurrencyProperties.DestroyIsTerminal` holds only for the modelled events.
- The getters `isQueueDestory` and `getHistoryKeys` are direct reads of the `status` and `history` fields. `getHistoryKeys` returns the live history array, not a copy, so a caller could truncate or reorder it outside any modelled event; `ConcurrencyProperties.HistoryRecordsCompletions` holds only while callers leave that array alone.
- Numeric options are natural numbers. Negative or fractional capacities, which JavaScript would accept, are not modelled.
- A `func` that throws synchronously instead of returning a rejected promise is not modelled separately. In the program it would settle inside its own launch. That gives the same state as a launch followed at once by `Complete`.
- async-get-data.ts is not part of this model. It is a resolve-once promise wrapper that the queues do not use.

=== FILE: concurrency_properties.dfy ===
/**
 Properties of the task queue over whole traces of events: the invariant
 every event preserves (capacity bounds, one escalation timer at most,
 distinct keys under `noRepeat`, an emptied queue once destroyed), the
 growth of the history, and the terminal nature of destruction.
 */
module ConcurrencyProperties {
  import opened Splice
  import MinInterval
  import opened Concurrency

  /** Every key occurs at most once among `ts`. */
  ghost predicate UniqueKeys(ts: seq<Task>)
  {
    forall k :: multiset(KeysOf(ts))[k] <= 1
  }

  /** What holds of every queue reachable from `Init`. */
  ghost predicate Valid(q: TaskQueue)
  {
    && |q.main| <= q.opts.capacity
    && |q.supplement| <= q.opts.supplementalCapacity
    && q.timersPending == (if q.timerArmed then 1 else 0)
    && q.throttle.status == q.status
    && (q.status == MinInterval.Destroyed ==>
          q.waiting == [] && q.main == [] && q.supplement == [] && !q.timerArmed)
    && (q.opts.noRepeat ==> UniqueKeys(Tracked(q)))
  }

  lemma KeysOfAppend(a: seq<Task>, b: seq<Task>)
    ensures KeysOf(a + b) == KeysOf(a) + KeysOf(b)
  {
  }

  /** Filtering tasks can only drop keys. */
  lemma {:induction false} SelectKeysShrink(s: seq<Task>, p: Task -> bool, want: bool)
    ensures multiset(KeysOf(Select(s, p, want))) <= multiset(KeysOf(s))
    decreases |s|
  {
    if |s| > 0 {
      SelectKeysShrink(s[1..], p, want);
      var head := if p(s[0]) == want then [s[0]] else [];
      KeysOfAppend(head, Select(s[1..], p, want));
      KeysOfAppend([s[0]], s[1..]);
      assert s == [s[0]] + s[1..];
    }
  }

  lemma UniqueKeysShrink(a: seq<Task>, b: seq<Task>)
    requires multiset(KeysOf(a)) <= multiset(KeysOf(b))
    requires UniqueKeys(b)
    ensures UniqueKeys(a)
  {
  }

  /** Appending a task whose key is not yet tracked keeps the keys distinct. */
  lemma AppendFreshKey(ts: seq<Task>, t: Task)
    requires UniqueKeys(ts)
    requires t.key !in KeysOf(ts)
    ensures UniqueKeys(ts + [t])
  {
    KeysOfAppend(ts, [t]);
    assert KeysOf([t]) == [t.key];
  }

  /** The duplicate check asks whether some processing or waiting task already carries the key. */
  lemma IsRepeatFindsTrackedKey(q: TaskQueue, k: string)
    ensures IsRepeat(q, k) <==> exists t :: (t in AllProcessingTasks(q) || t in q.waiting) && t.key == k
  {
    if IsRepeat(q, k) {
      var i :| 0 <= i < |Tracked(q)| && Tracked(q)[i].key == k;
      assert Tracked(q)[i] in AllProcessingTasks(q) + q.waiting;
    }
    if exists t :: (t in AllProcessingTasks(q) || t in q.waiting) && t.key == k {
      var t :| (t in AllProcessingTasks(q) || t in q.waiting) && t.key == k;
      assert t in Tracked(q);
      var i :| 0 <= i < |Tracked(q)| && Tracked(q)[i] == t;
      assert KeysOf(Tracked(q))[i] == k;
    }
  }

  /** Completion drops tracked keys and adds none. */
  lemma RetireShrinksKeys(q: TaskQueue, k: string)
    ensures multiset(KeysOf(Tracked(Retire(q, k)))) <= multiset(KeysOf(Tracked(q)))
  {
    var r := Retire(q, k);
    var isK := (v: Task) => v.key == k;
    SelectKeysShrink(q.main, isK, false);
    SelectKeysShrink(q.supplement, isK, false);
    KeysOfAppend(r.supplement + r.main, r.waiting);
    KeysOfAppend(r.supplement, r.main);
    KeysOfAppend(q.supplement + q.main, q.waiting);
    KeysOfAppend(q.supplement, q.main);
  }

  lemma RemoveWaitingShrinksKeys(q: TaskQueue, keys: seq<string>)
    ensures multiset(KeysOf(Tracked(RemoveWaitingTaskNotInKeys(q, keys)))) <= multiset(KeysOf(Tracked(q)))
  {
    var r := RemoveWaitingTaskNotInKeys(q, keys);
    SelectKeysShrink(q.waiting, (v: Task) => v.key !in keys, false);
    KeysOfAppend(r.supplement + r.main, r.waiting);
    KeysOfAppend(q.supplement + q.main, q.waiting);
  }

  /** Completion removes from main and the supplement exactly the tasks keyed `k`, whatever `noRepeat` says. */
  lemma RetireRemovesExactlyKey(q: TaskQueue, k: string, t: Task)
    ensures t in Retire(q, k).main <==> t in q.main && t.key != k
    ensures t in Retire(q, k).supplement <==> t in q.supplement && t.key != k
    ensures t in Retire(q, k).waiting <==> t in q.waiting
  {
    SelectMember(q.main, (v: Task) => v.key == k, false, t);
    SelectMember(q.supplement, (v: Task) => v.key == k, false, t);
  }

  /** Cancellation keeps exactly the waiting tasks whose key is listed; processing tasks are untouched. */
  lemma RemoveWaitingKeepsExactlyListed(q: TaskQueue, keys: seq<string>, t: Task)
    ensures t in RemoveWaitingTaskNotInKeys(q, keys).waiting <==> t in q.waiting && t.key in keys
    ensures RemoveWaitingTaskNotInKeys(q, keys).main == q.main
    ensures RemoveWaitingTaskNotInKeys(q, keys).supplement == q.supplement
  {
    SelectMember(q.waiting, (v: Task) => v.key !in keys, false, t);
  }

  lemma InitValid(opts: Options)
    ensures Valid(Init(opts))
  {
  }

  lemma ExecuteKeepsValid(q: TaskQueue)
    requires Valid(q)
    ensures Valid(Execute(q))
  {
  }

  /** Every event keeps the invariant. */
  lemma StepKeepsValid(q: TaskQueue, e: Event)
    requires Valid(q)
    ensures Valid(Step(q, e))
  {
    match e
    case Add(t) => AddKeepsValid(q, t);
    case TimerFire => TimerFiresKeepsValid(q);
    case Completes(k) => CompleteKeepsValid(q, k);
    case RemoveWaitingNotIn(keys) =>
      if q.opts.noRepeat {
        RemoveWaitingShrinksKeys(q, keys);
        UniqueKeysShrink(Tracked(RemoveWaitingTaskNotInKeys(q, keys)), Tracked(q));
      }
    case Destroy =>
      assert KeysOf(Tracked(StopAndDestroy(q))) == [];
    case Interval =>
  }

  lemma AddKeepsValid(q: TaskQueue, t: Task)
    requires Valid(q)
    ensures Valid(AddTask(q, t))
  {
    if q.status == MinInterval.Normal && !(q.opts.noRepeat && IsRepeat(q, t.key)) {
      var appended := q.(waiting := q.waiting + [t]);
      assert Tracked(appended) == Tracked(q) + [t];
      if q.opts.noRepeat {
        AppendFreshKey(Tracked(q), t);
      }
      ExecuteKeepsValid(appended);
      assert AddTask(q, t) == Execute(appended);
    }
  }

  lemma TimerFiresKeepsValid(q: TaskQueue)
    requires Valid(q)
    ensures Valid(TimerFires(q))
  {
    if q.timersPending > 0 && |q.supplement| < q.opts.supplementalCapacity && |q.main| > 0 {
      var moved := q.(timerArmed := false, timersPending := q.timersPending - 1,
                      main := q.main[1..], supplement := q.supplement + [q.main[0]]);
      assert Tracked(moved) == Tracked(q) by {
        assert q.main == [q.main[0]] + q.main[1..];
      }
      ExecuteKeepsValid(moved);
      assert TimerFires(q) == Execute(moved);
    }
  }

  lemma CompleteKeepsValid(q: TaskQueue, k: string)
    requires Valid(q)
    ensures Valid(Complete(q, k))
  {
    var retired := Retire(q, k);
    if q.opts.noRepeat {
      RetireShrinksKeys(q, k);
      UniqueKeysShrink(Tracked(retired), Tracked(q));
    }
    ExecuteKeepsValid(retired);
  }

  lemma {:induction false} RunKeepsValid(q: TaskQueue, evs: seq<Event>)
    requires Valid(q)
    ensures Valid(Run(q, evs))
    decreases |evs|
  {
    if |evs| > 0 {
      StepKeepsValid(q, evs[0]);
      RunKeepsValid(Step(q, evs[0]), evs[1..]);
    }
  }

  /**
   Whatever the events, a queue built by the constructor never holds more
   than `capacity` tasks in main or `supplementalCapacity` in the
   supplement, never has more than one escalation timer pending, and under
   `noRepeat` never tracks two tasks with the same key.
   */
  lemma ReachableQueueBounds(opts: Options, evs: seq<Event>)
    ensures |Run(Init(opts), evs).main| <= opts.capacity
    ensures |Run(Init(opts), evs).supplement| <= opts.supplementalCapacity
    ensures Run(Init(opts), evs).timersPending <= 1
    ensures Run(Init(opts), evs).timerArmed <==> Run(Init(opts), evs).timersPending == 1
    ensures opts.noRepeat ==> UniqueKeys(Tracked(Run(Init(opts), evs)))
  {
    InitValid(opts);
    RunKeepsValid(Init(opts), evs);
    RunKeepsOptions(Init(opts), evs);
  }

  lemma {:induction false} RunKeepsOptions(q: TaskQueue, evs: seq<Event>)
    ensures Run(q, evs).opts == q.opts
    decreases |evs|
  {
    if |evs| > 0 {
      RunKeepsOptions(Step(q, evs[0]), evs[1..]);
    }
  }

  /** The keys of the `Completes` events of a trace, in order. */
  function CompletedKeys(evs: seq<Event>): seq<string>
    decreases |evs|
  {
    if |evs| == 0 then []
    else (if evs[0].Completes? then [evs[0].key] else []) + CompletedKeys(evs[1..])
  }

  /**
   The history is append-only: it records exactly the keys of the
   completions delivered, in delivery order, whatever the status. So a task
   launched before a destroy still lands in the history when it settles.
   */
  lemma {:induction false} HistoryRecordsCompletions(q: TaskQueue, evs: seq<Event>)
    ensures Run(q, evs).history == q.history + CompletedKeys(evs)
    decreases |evs|
  {
    if |evs| > 0 {
      var q1 := HistoryFirst(q, evs);
      HistoryRecordsCompletions(q1, evs[1..]);
    }
  }

  lemma StepHistory(q: TaskQueue, e: Event)
    ensures Step(q, e).history == q.history + (if e.Completes? then [e.key] else [])
  {
  }

  /** The first event of a trace, as far as the history goes. */
  lemma HistoryFirst(q: TaskQueue, evs: seq<Event>) returns (q1: TaskQueue)
    requires |evs| > 0
    ensures Run(q, evs) == Run(q1, evs[1..])
    ensures q.history + CompletedKeys(evs) == q1.history + CompletedKeys(evs[1..])
  {
    q1 := Step(q, evs[0]);
    var head := if evs[0].Completes? then [evs[0].key] else [];
    StepHistory(q, evs[0]);
    assert CompletedKeys(evs) == head + CompletedKeys(evs[1..]);
    assert (q.history + head) + CompletedKeys(evs[1..]) == q.history + (head + CompletedKeys(evs[1..]));
  }

  /**
   Destruction is terminal: the status never returns to normal, the three
   task lists stay empty, no timer is armed again and the pacing queue
   launches nothing more.
   */
  lemma {:induction false} DestroyIsTerminal(q: TaskQueue, evs: seq<Event>)
    requires Valid(q)
    requires q.status == MinInterval.Destroyed
    ensures Run(q, evs).status == MinInterval.Destroyed
    ensures Run(q, evs).waiting == [] && Run(q, evs).main == [] && Run(q, evs).supplement == []
    ensures !Run(q, evs).timerArmed && Run(q, evs).timersPending == 0
    ensures Run(q, evs).throttle.launched == q.throttle.launched
    decreases |evs|
  {
    if |evs| > 0 {
      var q1 := Step(q, evs[0]);
      StepKeepsValid(q, evs[0]);
      assert q1.throttle.launched == q.throttle.launched;
      DestroyIsTerminal(q1, evs[1..]);
    }
  }

  /** After `stopAndDestory`, the history holds exactly what it held plus the later completions. */
  lemma HistoryAfterDestroy(q: TaskQueue, evs: seq<Event>)
    ensures Run(StopAndDestroy(q), evs).history == q.history + CompletedKeys(evs)
  {
    HistoryRecordsCompletions(StopAndDestroy(q), evs);
  }
}

=== FILE: concurrency_queue.dfy ===
/**
 The capacity-escalating task queue (`ConcurrencyTaskQueue` in queue.ts).

 Every asynchronous effect is an explicit event, applied by a pure function:
 - `AddTask`, `RemoveWaitingTaskNotInKeys` and `StopAndDestroy` are the
   public calls;
 - `TimerFires` is the callback of the escalation timer set up by
   `handleSupplyQueue`;
 - `Complete(k)` is the rest of the wrapper that `execute` hands to the
   launch-pacing queue, run once the wrapped task with key `k` has settled,
   whether it succeeded or failed;
 - `IntervalElapses` resumes the owned launch-pacing queue.
 A task's function is not modelled; a task is its key plus an identity.
 */
module Concurrency {
  import opened Splice
  import MinInterval

  datatype Task = Task(key: string, id: nat)

  /** The constructor options the bookkeeping depends on. */
  datatype Options = Options(capacity: nat, supplementalCapacity: nat, noRepeat: bool)

  /**
   `timerArmed` is `supplyWaitingTimer != 0`. `timersPending` counts the
   escalation callbacks that the host still holds (set, not yet fired, not
   cleared).
   */
  datatype TaskQueue = TaskQueue(
    opts: Options,
    waiting: seq<Task>,
    main: seq<Task>,
    supplement: seq<Task>,
    history: seq<string>,
    timerArmed: bool,
    timersPending: nat,
    status: MinInterval.Status,
    throttle: MinInterval.IntervalQueue<Task>)

  function Init(opts: Options): (q: TaskQueue)
    ensures q.waiting == [] && q.main == [] && q.supplement == [] && q.history == []
    ensures !q.timerArmed && q.timersPending == 0 && q.status == MinInterval.Normal
    ensures q.opts == opts
    // the owned pacing queue starts idle, empty and alive
    ensures q.throttle.items == [] && q.throttle.launched == [] && !q.throttle.busy
    ensures q.throttle.status == MinInterval.Normal
  {
    TaskQueue(opts, [], [], [], [], false, 0, MinInterval.Normal, MinInterval.Init())
  }

  function KeysOf(ts: seq<Task>): (ks: seq<string>)
    ensures |ks| == |ts|
    ensures forall i :: 0 <= i < |ts| ==> ks[i] == ts[i].key
  {
    seq(|ts|, i requires 0 <= i < |ts| => ts[i].key)
  }

  /** The getter `allProcessingTasks`: supplement first, then main. */
  function AllProcessingTasks(q: TaskQueue): (r: seq<Task>)
    ensures |r| == |q.supplement| + |q.main|
    ensures r[..|q.supplement|] == q.supplement && r[|q.supplement|..] == q.main
    ensures forall t :: t in r <==> t in q.supplement || t in q.main
  {
    q.supplement + q.main
  }

  /**
   Every task the queue still tracks, in the order the duplicate check of
   `addTask` scans them. Admission and escalation only move the boundaries
   between the three parts, never the order of this sequence.
   */
  function Tracked(q: TaskQueue): seq<Task>
  {
    AllProcessingTasks(q) + q.waiting
  }

  /** A launched wrapper is an async function, so invoking it never throws synchronously. */
  function NeverThrows(t: Task): bool
  {
    false
  }

  /** When `execute` admits a task. */
  predicate Admits(q: TaskQueue)
  {
    q.status == MinInterval.Normal && |q.waiting| > 0 && |q.main| < q.opts.capacity
  }

  /** `window.clearTimeout` of the armed timer: the host drops its pending callback. */
  function ClearTimer(q: TaskQueue): (r: TaskQueue)
    ensures !r.timerArmed
    ensures q.timersPending > 0 ==> r.timersPending == q.timersPending - 1
    ensures r.waiting == q.waiting && r.main == q.main && r.supplement == q.supplement
    ensures r.history == q.history && r.status == q.status && r.throttle == q.throttle && r.opts == q.opts
  {
    q.(timerArmed := false, timersPending := if q.timersPending == 0 then 0 else q.timersPending - 1)
  }

  /** `handleSupplyQueue`: sets a new timer only when none is armed. */
  function HandleSupplyQueue(q: TaskQueue): (r: TaskQueue)
    ensures r.timerArmed
    ensures q.timerArmed ==> r == q
    ensures !q.timerArmed ==> r.timersPending == q.timersPending + 1
    ensures r.waiting == q.waiting && r.main == q.main && r.supplement == q.supplement
    ensures r.history == q.history && r.status == q.status && r.throttle == q.throttle && r.opts == q.opts
  {
    if q.timerArmed then q
    else q.(timerArmed := true, timersPending := q.timersPending + 1)
  }

  /**
   The private `execute`: admits at most one task per call. The head of
   `waiting` moves to the tail of `main`, any armed timer is cleared, a new
   one is set if waiting tasks remain while main is full, and the task's
   wrapper is handed to the launch-pacing queue.
   */
  function Execute(q: TaskQueue): (r: TaskQueue)
    ensures Tracked(r) == Tracked(q)
    ensures r.supplement == q.supplement && r.history == q.history
    ensures r.status == q.status && r.opts == q.opts
    ensures !Admits(q) ==> r == q
    ensures Admits(q) ==>
      && r.waiting == q.waiting[1..]
      && r.main == q.main + [q.waiting[0]]
      && r.throttle == MinInterval.AddTask(q.throttle, q.waiting[0], NeverThrows)
      && (r.timerArmed <==> |r.waiting| > 0 && |r.main| >= q.opts.capacity)
    ensures Admits(q) && q.timersPending == (if q.timerArmed then 1 else 0) ==>
      r.timersPending == (if r.timerArmed then 1 else 0)
  {
    if !Admits(q) then q
    else
      var item := q.waiting[0];
      var moved := q.(waiting := q.waiting[1..], main := q.main + [item]);
      var cleared := if moved.timerArmed then ClearTimer(moved) else moved;
      var timed := if |cleared.waiting| > 0 && |cleared.main| >= q.opts.capacity
                   then HandleSupplyQueue(cleared) else cleared;
      assert Tracked(timed) == Tracked(q) by {
        assert q.waiting == [item] + q.waiting[1..];
      }
      timed.(throttle := MinInterval.AddTask(q.throttle, item, NeverThrows))
  }

  /** The duplicate check of `addTask`: some tracked task already has key `k`. */
  predicate IsRepeat(q: TaskQueue, k: string): (b: bool)
    ensures b <==> exists i :: 0 <= i < |Tracked(q)| && Tracked(q)[i].key == k
  {
    k in KeysOf(Tracked(q))
  }

  /** `addTask`: ignored once destroyed, or when `noRepeat` and the key is already tracked. */
  function AddTask(q: TaskQueue, t: Task): (r: TaskQueue)
    ensures q.status == MinInterval.Destroyed ==> r == q
    ensures q.opts.noRepeat && IsRepeat(q, t.key) ==> r == q
    ensures q.status == MinInterval.Normal && !(q.opts.noRepeat && IsRepeat(q, t.key)) ==>
      && Tracked(r) == Tracked(q) + [t]
      && r.supplement == q.supplement
      && |r.main| <= |q.main| + 1
    // `execute` runs after the push: with room in main the oldest waiting task is admitted
    ensures q.status == MinInterval.Normal && !(q.opts.noRepeat && IsRepeat(q, t.key)) && |q.main| < q.opts.capacity ==>
      && r.main == q.main + [(q.waiting + [t])[0]]
      && r.waiting == (q.waiting + [t])[1..]
      // the admitted task's wrapper goes to the pacing queue, and the timer is re-armed
      // exactly when tasks still wait behind a full main
      && r.throttle == MinInterval.AddTask(q.throttle, (q.waiting + [t])[0], NeverThrows)
      && (r.timerArmed <==> |r.waiting| > 0 && |r.main| >= q.opts.capacity)
      && (q.timersPending == (if q.timerArmed then 1 else 0) ==> r.timersPending == (if r.timerArmed then 1 else 0))
    // with main full the task only joins waiting: no admission, no timer, no launch
    ensures q.status == MinInterval.Normal && !(q.opts.noRepeat && IsRepeat(q, t.key)) && |q.main| >= q.opts.capacity ==>
      r == q.(waiting := q.waiting + [t])
    ensures r.history == q.history && r.status == q.status && r.opts == q.opts
  {
    if q.status == MinInterval.Destroyed then q
    else if q.opts.noRepeat && IsRepeat(q, t.key) then q
    else
      var appended := q.(waiting := q.waiting + [t]);
      assert Tracked(appended) == Tracked(q) + [t];
      Execute(appended)
  }

  /**
   The escalation timer's callback: it always disarms; when the supplement
   has room and main is non-empty, the oldest main task moves to the tail
   of the supplement and `execute` runs. With no timer pending there is
   nothing to fire.
   */
  function TimerFires(q: TaskQueue): (r: TaskQueue)
    ensures q.timersPending > 0 ==> !r.timerArmed || |r.waiting| > 0
    ensures Tracked(r) == Tracked(q)
    ensures r.history == q.history && r.status == q.status && r.opts == q.opts
    ensures q.timersPending == 0 ==> r == q
    ensures q.timersPending > 0 && !(|q.supplement| < q.opts.supplementalCapacity && |q.main| > 0) ==>
      r == q.(timerArmed := false, timersPending := q.timersPending - 1)
    ensures q.timersPending > 0 && |q.supplement| < q.opts.supplementalCapacity && |q.main| > 0 ==>
      && r.supplement == q.supplement + [q.main[0]]
      && |r.supplement| <= q.opts.supplementalCapacity
      && |q.main| - 1 <= |r.main|
      && r.main[..|q.main| - 1] == q.main[1..]
    // escalation frees a main slot, which the next waiting task takes
    ensures q.timersPending > 0 && |q.supplement| < q.opts.supplementalCapacity && 0 < |q.main| <= q.opts.capacity
            && |q.waiting| > 0 && q.status == MinInterval.Normal ==>
      && r.main == q.main[1..] + [q.waiting[0]]
      && r.waiting == q.waiting[1..]
      && r.throttle == MinInterval.AddTask(q.throttle, q.waiting[0], NeverThrows)
      && (r.timerArmed <==> |r.waiting| > 0 && |r.main| >= q.opts.capacity)
      && (q.timersPending == 1 ==> r.timersPending == (if r.timerArmed then 1 else 0))
    // with nobody waiting, the move admits nothing and leaves the timer disarmed
    ensures q.timersPending > 0 && |q.supplement| < q.opts.supplementalCapacity && |q.main| > 0 && q.waiting == [] ==>
      r.throttle == q.throttle && !r.timerArmed && r.timersPending == q.timersPending - 1
  {
    if q.timersPending == 0 then q
    else
      var fired := q.(timerArmed := false, timersPending := q.timersPending - 1);
      if |q.supplement| < q.opts.supplementalCapacity && |q.main| > 0 then
        var moved := fired.(main := q.main[1..], supplement := q.supplement + [q.main[0]]);
        assert Tracked(moved) == Tracked(q) by {
          assert q.main == [q.main[0]] + q.main[1..];
        }
        Execute(moved)
      else fired
  }

  /**
   The bookkeeping half of the completion wrapper: every entry keyed `k`
   leaves main and the supplement (both are scanned, since the task may
   have been moved by escalation) and `k` is recorded in the history. The
   status is not consulted.
   */
  function Retire(q: TaskQueue, k: string): (r: TaskQueue)
    ensures r.main == Select(q.main, (v: Task) => v.key == k, false)
    ensures r.supplement == Select(q.supplement, (v: Task) => v.key == k, false)
    ensures forall i :: 0 <= i < |r.main| ==> r.main[i].key != k
    ensures forall i :: 0 <= i < |r.supplement| ==> r.supplement[i].key != k
    ensures r.history == q.history + [k]
    ensures r.waiting == q.waiting && r.status == q.status && r.opts == q.opts
    ensures r.timerArmed == q.timerArmed && r.timersPending == q.timersPending && r.throttle == q.throttle
  {
    var isK := (v: Task) => v.key == k;
    q.(main := SpliceBy(q.main, isK).kept,
       supplement := SpliceBy(q.supplement, isK).kept,
       history := q.history + [k])
  }

  /** The whole completion wrapper: retire the task, then `execute`. */
  function Complete(q: TaskQueue, k: string): (r: TaskQueue)
    ensures r.history == q.history + [k]
    ensures r.status == q.status && r.opts == q.opts
    ensures r.supplement == Select(q.supplement, (v: Task) => v.key == k, false)
    ensures |Retire(q, k).main| <= |r.main| && r.main[..|Retire(q, k).main|] == Retire(q, k).main
    ensures |r.main| <= |Retire(q, k).main| + 1
    ensures Tracked(r) == Tracked(Retire(q, k))
    ensures r.waiting == q.waiting || (|q.waiting| > 0 && r.waiting == q.waiting[1..])
    // `execute` runs after the retirement: a freed main slot takes the oldest waiting task
    ensures Admits(Retire(q, k)) ==>
      && r.main == Retire(q, k).main + [q.waiting[0]]
      && r.waiting == q.waiting[1..]
      // the admitted task's wrapper goes to the pacing queue, and the timer is re-armed
      // exactly when tasks still wait behind a full main
      && r.throttle == MinInterval.AddTask(q.throttle, q.waiting[0], NeverThrows)
      && (r.timerArmed <==> |r.waiting| > 0 && |r.main| >= q.opts.capacity)
      && (q.timersPending == (if q.timerArmed then 1 else 0) ==> r.timersPending == (if r.timerArmed then 1 else 0))
    ensures !Admits(Retire(q, k)) ==> r == Retire(q, k)
  {
    Execute(Retire(q, k))
  }

  /** `removeWaitingTaskNotInKeys`: cancel every waiting task whose key is not listed. */
  function RemoveWaitingTaskNotInKeys(q: TaskQueue, keys: seq<string>): (r: TaskQueue)
    ensures r.waiting == Select(q.waiting, (v: Task) => v.key !in keys, false)
    ensures forall i :: 0 <= i < |r.waiting| ==> r.waiting[i].key in keys
    ensures r == q.(waiting := r.waiting)
  {
    q.(waiting := SpliceBy(q.waiting, (v: Task) => v.key !in keys).kept)
  }

  /**
   `stopAndDestory`: terminal. All three task lists are emptied, an armed
   timer is cleared, the history is kept, the owned pacing queue is
   destroyed.
   */
  function StopAndDestroy(q: TaskQueue): (r: TaskQueue)
    ensures r.status == MinInterval.Destroyed
    ensures r.waiting == [] && r.main == [] && r.supplement == [] && !r.timerArmed
    ensures q.timerArmed && q.timersPending > 0 ==> r.timersPending == q.timersPending - 1
    ensures !q.timerArmed ==> r.timersPending == q.timersPending
    ensures r.history == q.history && r.opts == q.opts
    ensures r.throttle == MinInterval.StopAndDestroy(q.throttle)
  {
    var emptied := q.(status := MinInterval.Destroyed, waiting := [], supplement := [], main := []);
    var cleared := if emptied.timerArmed then ClearTimer(emptied) else emptied;
    cleared.(throttle := MinInterval.StopAndDestroy(q.throttle))
  }

  /** The owned pacing queue's interval has elapsed; it may launch the next wrapper. */
  function IntervalElapses(q: TaskQueue): (r: TaskQueue)
    ensures r == q.(throttle := r.throttle)
    ensures r.throttle.launched + r.throttle.items == q.throttle.launched + q.throttle.items
    // a wrapper never throws synchronously, so the next one is launched and the pacing queue waits again
    ensures q.throttle.busy && q.throttle.status == MinInterval.Normal && |q.throttle.items| > 0 ==>
      && r.throttle.launched == q.throttle.launched + [q.throttle.items[0]]
      && r.throttle.items == q.throttle.items[1..]
      && r.throttle.busy
    ensures !q.throttle.busy ==> r == q
    // the `finally` clears the current launch: with nothing pending the pacing queue becomes idle
    ensures q.throttle.busy && q.throttle.items == [] ==> !r.throttle.busy
  {
    q.(throttle := MinInterval.Elapsed(q.throttle, NeverThrows))
  }

  datatype Event =
    | Add(task: Task)
    | TimerFire
    | Completes(key: string)
    | RemoveWaitingNotIn(keys: seq<string>)
    | Destroy
    | Interval

  function Step(q: TaskQueue, e: Event): TaskQueue
  {
    match e
    case Add(t) => AddTask(q, t)
    case TimerFire => TimerFires(q)
    case Completes(k) => Complete(q, k)
    case RemoveWaitingNotIn(keys) => RemoveWaitingTaskNotInKeys(q, keys)
    case Destroy => StopAndDestroy(q)
    case Interval => IntervalElapses(q)
  }

  function Run(q: TaskQueue, evs: seq<Event>): TaskQueue
    decreases |evs|
  {
    if |evs| == 0 then q else Run(Step(q, evs[0]), evs[1..])
  }
}

=== FILE: concurrency_scenarios.dfy ===
/**
 How single submissions behave in the two situations that matter for the
 escalation timer, and a worked trace with concrete tasks built from them.
 */
module ConcurrencyScenarios {
  import MinInterval
  import opened Splice
  import opened Concurrency

  /** A task submitted when nobody waits and main has room is admitted at once, and no timer is armed. */
  lemma SubmitWithRoomIsAdmitted(q: TaskQueue, t: Task)
    requires q.status == MinInterval.Normal && q.waiting == [] && |q.main| < q.opts.capacity
    requires !(q.opts.noRepeat && IsRepeat(q, t.key))
    requires q.timersPending == (if q.timerArmed then 1 else 0)
    ensures AddTask(q, t).main == q.main + [t]
    ensures AddTask(q, t).waiting == []
    ensures AddTask(q, t).supplement == q.supplement
    ensures !AddTask(q, t).timerArmed && AddTask(q, t).timersPending == 0
  {
  }

  /**
   A task submitted while main is full only joins the waiting queue:
   `execute` admits nothing and so sets no escalation timer either.
   */
  lemma SubmitToFullMainOnlyWaits(q: TaskQueue, t: Task)
    requires q.status == MinInterval.Normal && |q.main| >= q.opts.capacity
    requires !(q.opts.noRepeat && IsRepeat(q, t.key))
    ensures AddTask(q, t) == q.(waiting := q.waiting + [t])
  {
  }

  lemma Unrepeated(q: TaskQueue, k: string)
    requires forall i :: 0 <= i < |Tracked(q)| ==> Tracked(q)[i].key != k
    ensures !IsRepeat(q, k)
  {
  }

  /**
   Capacity 2, supplement 1, `noRepeat`. Submitting A, B, C, D one after
   the other admits A and B; C and D wait with no escalation timer armed,
   because C and D arrived when main was already full. Once A settles, C is
   admitted behind B with D still waiting, which arms the timer; when it
   fires, B moves to the supplement and D is admitted.
   */
  lemma EscalationScenario()
    ensures
      var a, b, c, d := Task("A", 0), Task("B", 1), Task("C", 2), Task("D", 3);
      var q4 := AddTask(AddTask(AddTask(AddTask(Init(Options(2, 1, true)), a), b), c), d);
      var q5 := Complete(q4, "A");
      var q6 := TimerFires(q5);
      && q4.main == [a, b] && q4.waiting == [c, d] && !q4.timerArmed
      && q5.main == [b, c] && q5.waiting == [d] && q5.timerArmed && q5.history == ["A"]
      && q6.supplement == [b] && q6.main == [c, d] && q6.waiting == [] && !q6.timerArmed
  {
    var a, b, c, d := Task("A", 0), Task("B", 1), Task("C", 2), Task("D", 3);
    var q4 := AddTask(AddTask(AddTask(AddTask(Init(Options(2, 1, true)), a), b), c), d);
    ScenarioSubmissions(a, b, c, d);
    ScenarioCompletion(q4, a, b, c, d);
    ScenarioTimer(Complete(q4, "A"), b, c, d);
  }

  lemma ScenarioSubmissions(a: Task, b: Task, c: Task, d: Task)
    requires a == Task("A", 0) && b == Task("B", 1) && c == Task("C", 2) && d == Task("D", 3)
    ensures
      var q4 := AddTask(AddTask(AddTask(AddTask(Init(Options(2, 1, true)), a), b), c), d);
      && q4.main == [a, b] && q4.waiting == [c, d] && q4.supplement == [] && q4.history == []
      && !q4.timerArmed && q4.timersPending == 0
      && q4.status == MinInterval.Normal && q4.opts == Options(2, 1, true)
  {
    var q2 := AddTask(AddTask(Init(Options(2, 1, true)), a), b);
    ScenarioFirstTwo(a, b);
    ScenarioLastTwo(q2, a, b, c, d);
  }

  lemma ScenarioFirstTwo(a: Task, b: Task)
    requires a == Task("A", 0) && b == Task("B", 1)
    ensures
      var q2 := AddTask(AddTask(Init(Options(2, 1, true)), a), b);
      && q2.main == [a, b] && q2.waiting == [] && q2.supplement == [] && q2.history == []
      && !q2.timerArmed && q2.timersPending == 0
      && q2.status == MinInterval.Normal && q2.opts == Options(2, 1, true)
  {
    var q0 := Init(Options(2, 1, true));
    Unrepeated(q0, "A");
    SubmitWithRoomIsAdmitted(q0, a);
    var q1 := AddTask(q0, a);
    assert Tracked(q1) == [a];
    Unrepeated(q1, "B");
    SubmitWithRoomIsAdmitted(q1, b);
  }

  lemma ScenarioLastTwo(q2: TaskQueue, a: Task, b: Task, c: Task, d: Task)
    requires c == Task("C", 2) && d == Task("D", 3) && a.key == "A" && b.key == "B"
    requires q2.main == [a, b] && q2.waiting == [] && q2.supplement == [] && q2.history == []
    requires !q2.timerArmed && q2.timersPending == 0
    requires q2.status == MinInterval.Normal && q2.opts == Options(2, 1, true)
    ensures
      var q4 := AddTask(AddTask(q2, c), d);
      && q4.main == [a, b] && q4.waiting == [c, d] && q4.supplement == [] && q4.history == []
      && !q4.timerArmed && q4.timersPending == 0
      && q4.status == MinInterval.Normal && q4.opts == Options(2, 1, true)
  {
    assert Tracked(q2) == [a, b];
    Unrepeated(q2, "C");
    SubmitToFullMainOnlyWaits(q2, c);
    var q3 := AddTask(q2, c);
    assert Tracked(q3) == [a, b, c];
    Unrepeated(q3, "D");
    SubmitToFullMainOnlyWaits(q3, d);
  }

  lemma ScenarioCompletion(q4: TaskQueue, a: Task, b: Task, c: Task, d: Task)
    requires a == Task("A", 0) && b == Task("B", 1) && c == Task("C", 2) && d == Task("D", 3)
    requires q4.main == [a, b] && q4.waiting == [c, d] && q4.supplement == [] && q4.history == []
    requires !q4.timerArmed && q4.timersPending == 0
    requires q4.status == MinInterval.Normal && q4.opts == Options(2, 1, true)
    ensures
      var q5 := Complete(q4, "A");
      && q5.main == [b, c] && q5.waiting == [d] && q5.supplement == [] && q5.history == ["A"]
      && q5.timerArmed && q5.timersPending == 1
      && q5.status == MinInterval.Normal && q5.opts == Options(2, 1, true)
  {
    var r := Retire(q4, "A");
    assert r.main == [b] by {
      var isA := (v: Task) => v.key == "A";
      assert [a, b][1..] == [b];
      assert Select([b], isA, false) == [b];
    }
    assert r.supplement == [];
    assert Admits(r);
  }

  lemma ScenarioTimer(q5: TaskQueue, b: Task, c: Task, d: Task)
    requires q5.main == [b, c] && q5.waiting == [d] && q5.supplement == []
    requires q5.timerArmed && q5.timersPending == 1
    requires q5.status == MinInterval.Normal && q5.opts == Options(2, 1, true)
    ensures
      var q6 := TimerFires(q5);
      q6.supplement == [b] && q6.main == [c, d] && q6.waiting == [] && !q6.timerArmed
  {
    var moved := q5.(timerArmed := false, timersPending := 0, main := [c], supplement := [b]);
    assert TimerFires(q5) == Execute(moved);
    assert Admits(moved);
  }

  /** Under `noRepeat`, a second task with a key that is still waiting is dropped. */
  lemma DuplicateWhileWaitingIsDropped()
    ensures
      var first, second, dup := Task("X", 0), Task("Y", 1), Task("Y", 2);
      var q := AddTask(AddTask(AddTask(Init(Options(1, 0, true)), first), second), dup);
      q.main == [first] && q.waiting == [second]
  {
    var first, second, dup := Task("X", 0), Task("Y", 1), Task("Y", 2);
    var q0 := Init(Options(1, 0, true));
    Unrepeated(q0, "X");
    SubmitWithRoomIsAdmitted(q0, first);
    var q1 := AddTask(q0, first);
    assert Tracked(q1) == [first];
    Unrepeated(q1, "Y");
    SubmitToFullMainOnlyWaits(q1, second);
    var q2 := AddTask(q1, second);
    assert Tracked(q2) == [first, second];
    assert KeysOf(Tracked(q2))[1] == "Y";
    assert IsRepeat(q2, "Y");
  }
}

=== FILE: min_interval_queue.dfy ===
/**
 The launch-pacing queue (`MinIntervalQueue` in queue.ts).

 Timing is replaced by events. The `sleep(minInterval)` that follows a
 launch becomes an `Elapsed` event that the environment delivers later.
 Whether invoking an item throws synchronously is an oracle `throws`, so a
 throwing item is caught at once and the next one is launched in the same
 step. `launched` is the log of invocations in the order they happened. It
 is not a field of the source; it is what the properties below talk about.
 */
module MinInterval {

  /** `'normal' | 'destory'` in the source; one-way from Normal to Destroyed. */
  datatype Status = Normal | Destroyed

  /** `busy` is `currentTask != null`. */
  datatype IntervalQueue<T> = IntervalQueue(items: seq<T>, busy: bool, status: Status, launched: seq<T>)

  function Init<T>(): (q: IntervalQueue<T>)
    ensures q.items == [] && q.launched == [] && !q.busy && q.status == Normal
  {
    IntervalQueue([], false, Normal, [])
  }

  /**
   The private `execute`: unless destroyed, shift the head off `items` and
   invoke it. A launch that does not throw leaves the queue busy until its
   interval elapses; one that throws is caught, `currentTask` is cleared and
   `execute` runs again straight away.
   */
  function Execute<T>(q: IntervalQueue<T>, throws: T -> bool): (r: IntervalQueue<T>)
    // FIFO: launching only moves items from the front of the queue to the log
    ensures r.launched + r.items == q.launched + q.items
    ensures |q.launched| <= |r.launched|
    ensures r.status == q.status
    ensures q.status == Destroyed ==> r == q
    // the queue never idles while work is pending
    ensures q.status == Normal ==> r.busy || r.items == []
    // a live queue with work launches at least its head
    ensures q.status == Normal && |q.items| > 0 ==> |r.launched| > |q.launched| && r.launched[|q.launched|] == q.items[0]
    // every item launched here except the last one threw
    ensures forall i :: |q.launched| <= i < |r.launched| - 1 ==> throws(r.launched[i])
    // pacing: a busy queue is waiting out the interval of a launch that did not throw
    ensures !q.busy ==> (r.busy <==> |r.launched| > |q.launched| && !throws(r.launched[|r.launched| - 1]))
    decreases |q.items|
  {
    if q.status == Destroyed || |q.items| == 0 then q
    else
      var head := q.items[0];
      var next := q.(items := q.items[1..], launched := q.launched + [head]);
      if throws(head) then
        var r := Execute(next.(busy := false), throws);
        assert (r.launched + r.items)[|q.launched|] == r.launched[|q.launched|];
        r
      else next.(busy := true)
  }

  /** `addTask`: append; start `execute` only when no launch is current. */
  function AddTask<T>(q: IntervalQueue<T>, t: T, throws: T -> bool): (r: IntervalQueue<T>)
    ensures r.launched + r.items == q.launched + q.items + [t]
    ensures r.status == q.status
    ensures q.busy ==> r == q.(items := q.items + [t])
    ensures q.status == Destroyed ==> r == q.(items := q.items + [t])
    ensures q.status == Normal && !q.busy ==> |r.launched| > |q.launched|
  {
    var appended := q.(items := q.items + [t]);
    if !q.busy then Execute(appended, throws) else appended
  }

  /**
   The interval after a launch has elapsed: the `finally` clears
   `currentTask` and `execute` runs again. With no launch current there is
   no pending interval, or only one left over from before a destroy, whose
   resumption changes nothing.
   */
  function Elapsed<T>(q: IntervalQueue<T>, throws: T -> bool): (r: IntervalQueue<T>)
    ensures r.launched + r.items == q.launched + q.items
    ensures r.status == q.status
    ensures !q.busy ==> r == q
    // the `finally` clears the current launch: the queue stays busy only after a new launch that did not throw
    ensures q.busy ==> (r.busy <==> |r.launched| > |q.launched| && !throws(r.launched[|r.launched| - 1]))
    // the drain resumes: a busy live queue launches its next item and never idles with work left
    ensures q.busy && q.status == Normal ==> r.busy || r.items == []
    ensures q.busy && q.status == Normal && |q.items| > 0 ==>
      |r.launched| > |q.launched| && r.launched[|q.launched|] == q.items[0]
    // at most one launch per elapsed interval, unless the earlier ones threw
    ensures forall i :: |q.launched| <= i < |r.launched| - 1 ==> throws(r.launched[i])
  {
    if !q.busy then q else Execute(q.(busy := false), throws)
  }

  /** `stopAndDestory`: terminal; pending items are dropped, the log is kept. */
  function StopAndDestroy<T>(q: IntervalQueue<T>): (r: IntervalQueue<T>)
    ensures r.status == Destroyed && r.items == [] && !r.busy
    ensures r.launched == q.launched
  {
    q.(status := Destroyed, items := [], busy := false)
  }

  datatype Event<T> = Add(item: T) | IntervalElapses | Stop

  function Step<T>(q: IntervalQueue<T>, e: Event<T>, throws: T -> bool): IntervalQueue<T>
  {
    match e
    case Add(t) => AddTask(q, t, throws)
    case IntervalElapses => Elapsed(q, throws)
    case Stop => StopAndDestroy(q)
  }

  function Run<T>(q: IntervalQueue<T>, evs: seq<Event<T>>, throws: T -> bool): IntervalQueue<T>
    decreases |evs|
  {
    if |evs| == 0 then q else Run(Step(q, evs[0], throws), evs[1..], throws)
  }

  /** The items handed to `addTask` by a trace, in order. */
  function Added<T>(evs: seq<Event<T>>): seq<T>
    decreases |evs|
  {
    if |evs| == 0 then []
    else (if evs[0].Add? then [evs[0].item] else []) + Added(evs[1..])
  }

  function CountElapsed<T>(evs: seq<Event<T>>): nat
    decreases |evs|
  {
    if |evs| == 0 then 0
    else (if evs[0].IntervalElapses? then 1 else 0) + CountElapsed(evs[1..])
  }

  /** How many of the launches in `log` did not throw. */
  function CountQuiet<T>(log: seq<T>, throws: T -> bool): nat
    decreases |log|
  {
    if |log| == 0 then 0
    else CountQuiet(log[..|log| - 1], throws) + (if throws(log[|log| - 1]) then 0 else 1)
  }

  /** One launch may still start without waiting for an interval: the queue is idle and alive. */
  function Credit<T>(q: IntervalQueue<T>): nat
  {
    if q.busy || q.status == Destroyed then 0 else 1
  }

  /** Once destroyed, the queue launches nothing more, whatever happens next. */
  lemma {:induction false} DestroyedLaunchesNothing<T>(q: IntervalQueue<T>, evs: seq<Event<T>>, throws: T -> bool)
    requires q.status == Destroyed
    ensures Run(q, evs, throws).launched == q.launched
    ensures Run(q, evs, throws).status == Destroyed
    decreases |evs|
  {
    if |evs| > 0 {
      var q1 := Step(q, evs[0], throws);
      assert q1.launched == q.launched && q1.status == Destroyed;
      DestroyedLaunchesNothing(q1, evs[1..], throws);
    }
  }

  /**
   Launches happen in `addTask` order: the launch log is always a prefix of
   what was pending at the start followed by everything added since.
   */
  lemma {:induction false} LaunchesAreFifo<T>(q: IntervalQueue<T>, evs: seq<Event<T>>, throws: T -> bool)
    ensures Run(q, evs, throws).launched <= q.launched + q.items + Added(evs)
    decreases |evs|
  {
    if |evs| == 0 {
      assert (q.launched + q.items)[..|q.launched|] == q.launched;
    } else {
      var rest := evs[1..];
      var whole := q.launched + q.items + Added(evs);
      var q1 := RunFirst(q, evs, throws);
      if evs[0].Stop? {
        DestroyedLaunchesNothing(q1, rest, throws);
        assert whole[..|q.launched|] == q.launched;
      } else {
        LaunchesAreFifo(q1, rest, throws);
        assert q1.launched + q1.items + Added(rest) == whole;
      }
    }
  }

  /** The first event of a trace, as far as pending items and destruction go. */
  lemma RunFirst<T>(q: IntervalQueue<T>, evs: seq<Event<T>>, throws: T -> bool) returns (q1: IntervalQueue<T>)
    requires |evs| > 0
    ensures Run(q, evs, throws) == Run(q1, evs[1..], throws)
    ensures evs[0].Stop? ==> q1.status == Destroyed && q1.launched == q.launched
    ensures !evs[0].Stop? ==>
      q1.launched + q1.items + Added(evs[1..]) == q.launched + q.items + Added(evs)
  {
    q1 := Step(q, evs[0], throws);
    var head := if evs[0].Add? then [evs[0].item] else [];
    assert Added(evs) == head + Added(evs[1..]);
    if !evs[0].Stop? {
      assert q1.launched + q1.items == q.launched + q.items + head;
    }
  }

  lemma CountQuietSnoc<T>(log: seq<T>, x: T, throws: T -> bool)
    ensures CountQuiet(log + [x], throws) == CountQuiet(log, throws) + (if throws(x) then 0 else 1)
  {
  }

  /**
   What one `execute` from an idle queue does to the pacing account: either
   it ends in a non-throwing launch and uses up the idle credit, or it keeps
   the credit and launches only items that threw.
   */
  lemma {:induction false} ExecuteKeepsAccount<T>(q: IntervalQueue<T>, throws: T -> bool)
    requires !q.busy
    ensures CountQuiet(Execute(q, throws).launched, throws) + Credit(Execute(q, throws))
         == CountQuiet(q.launched, throws) + Credit(q)
    decreases |q.items|
  {
    if q.status == Normal && |q.items| > 0 {
      var head := q.items[0];
      var next := q.(items := q.items[1..], launched := q.launched + [head]);
      CountQuietSnoc(q.launched, head, throws);
      if throws(head) {
        ExecuteKeepsAccount(next.(busy := false), throws);
      }
    }
  }

  lemma StepKeepsAccount<T>(q: IntervalQueue<T>, e: Event<T>, throws: T -> bool)
    ensures CountQuiet(Step(q, e, throws).launched, throws) + Credit(Step(q, e, throws))
         <= CountQuiet(q.launched, throws) + Credit(q) + (if e.IntervalElapses? then 1 else 0)
  {
    match e
    case Add(t) =>
      if !q.busy {
        ExecuteKeepsAccount(q.(items := q.items + [t]), throws);
      }
    case IntervalElapses =>
      if q.busy {
        ExecuteKeepsAccount(q.(busy := false), throws);
      }
    case Stop =>
  }

  /**
   Minimum spacing, counted: over any trace, the launches that did not throw
   number at most the intervals that elapsed, plus one for a queue that
   started idle. A throwing launch skips the sleep, so it is not counted.
   */
  lemma {:induction false} LaunchSpacing<T>(q: IntervalQueue<T>, evs: seq<Event<T>>, throws: T -> bool)
    ensures CountQuiet(Run(q, evs, throws).launched, throws)
         <= CountQuiet(q.launched, throws) + CountElapsed(evs) + Credit(q)
    decreases |evs|
  {
    if |evs| > 0 {
      var q1 := Step(q, evs[0], throws);
      StepKeepsAccount(q, evs[0], throws);
      LaunchSpacing(q1, evs[1..], throws);
    }
  }

  /** With no synchronous throw, all launches after the first wait out an interval each. */
  lemma LaunchSpacingQuiet<T>(evs: seq<Event<T>>, throws: T -> bool)
    requires forall x :: !throws(x)
    ensures |Run(Init(), evs, throws).launched| <= CountElapsed(evs) + 1
  {
    LaunchSpacing(Init(), evs, throws);
    AllQuiet(Run(Init(), evs, throws).launched, throws);
  }

  lemma {:induction false} AllQuiet<T>(log: seq<T>, throws: T -> bool)
    requires forall x :: !throws(x)
    ensures CountQuiet(log, throws) == |log|
    decreases |log|
  {
    if |log| > 0 {
      AllQuiet(log[..|log| - 1], throws);
    }
  }
}

=== FILE: splice.dfy ===
/**
 Remove-by-predicate over a sequence (`spliceBy` in queue.ts).

 The source walks the array from its last index down to index 0, splices out
 every element the condition accepts and pushes it onto a result array. So
 the array ends up holding the rejected elements in their original order,
 and the result holds the accepted ones in reverse order of position.
 */
module Splice {

  /** The elements of `s` on which `p` answers `want`, in their original order. */
  function Select<T>(s: seq<T>, p: T -> bool, want: bool): (r: seq<T>)
    ensures |r| <= |s|
    ensures forall i :: 0 <= i < |r| ==> p(r[i]) == want
  {
    if |s| == 0 then []
    else (if p(s[0]) == want then [s[0]] else []) + Select(s[1..], p, want)
  }

  /** `s` read from its last element to its first. */
  function Reverse<T>(s: seq<T>): (r: seq<T>)
    ensures |r| == |s|
    ensures forall i :: 0 <= i < |s| ==> r[i] == s[|s| - 1 - i]
  {
    if |s| == 0 then [] else Reverse(s[1..]) + [s[0]]
  }

  /** What one call of spliceBy leaves behind and hands back. */
  datatype Spliced<T> = Spliced(kept: seq<T>, removed: seq<T>)

  /**
   The scan as a function: the last element is inspected first, so it is
   the first one pushed onto `removed` when `cond` accepts it; the elements
   before it are scanned afterwards.
   */
  function SpliceBy<T>(a: seq<T>, cond: T -> bool): (r: Spliced<T>)
    ensures r.kept == Select(a, cond, false)
    ensures r.removed == Reverse(Select(a, cond, true))
    decreases |a|
  {
    if |a| == 0 then Spliced([], [])
    else
      var last := a[|a| - 1];
      var front := a[..|a| - 1];
      var rest := SpliceBy(front, cond);
      SelectSnoc(front, last, cond, false);
      SelectSnoc(front, last, cond, true);
      assert front + [last] == a;
      if cond(last) then
        ReverseSnoc(Select(front, cond, true), last);
        Spliced(rest.kept, [last] + rest.removed)
      else
        Spliced(rest.kept + [last], rest.removed)
  }

  /**
   The loop of spliceBy, with `arr` playing the array that is spliced in
   place and `result` the array of removed elements.
   */
  method SpliceByInPlace<T>(a: seq<T>, cond: T -> bool) returns (arr: seq<T>, result: seq<T>)
    ensures arr == Select(a, cond, false)
    ensures result == Reverse(Select(a, cond, true))
    ensures Spliced(arr, result) == SpliceBy(a, cond)
  {
    arr := a;
    result := [];
    var index := |a|;
    while index != 0
      invariant 0 <= index <= |a|
      invariant arr == a[..index] + Select(a[index..], cond, false)
      invariant result == Reverse(Select(a[index..], cond, true))
      decreases index
    {
      index := index - 1;
      var item := arr[index];
      assert item == a[index];
      assert a[index..][1..] == a[index + 1..];
      if cond(item) {
        arr := arr[..index] + arr[index + 1..];
        assert a[..index + 1] == a[..index] + [item];
        result := result + [item];
      } else {
        assert a[..index + 1] == a[..index] + [item];
      }
    }
    assert a[..0] == [] && a[0..] == a;
  }

  lemma {:induction false} SelectSnoc<T>(s: seq<T>, x: T, p: T -> bool, want: bool)
    ensures Select(s + [x], p, want) == Select(s, p, want) + (if p(x) == want then [x] else [])
    decreases |s|
  {
    if |s| == 0 {
      assert s + [x] == [x];
    } else {
      assert (s + [x])[1..] == s[1..] + [x];
      SelectSnoc(s[1..], x, p, want);
    }
  }

  lemma ReverseSnoc<T>(s: seq<T>, x: T)
    ensures Reverse(s + [x]) == [x] + Reverse(s)
  {
  }

  /** Nothing is lost or invented: kept and removed together are a rearrangement of the input. */
  lemma {:induction false} SelectPartition<T>(s: seq<T>, p: T -> bool)
    ensures multiset(Select(s, p, false)) + multiset(Select(s, p, true)) == multiset(s)
    decreases |s|
  {
    if |s| > 0 {
      var t := s[1..];
      SelectPartition(t, p);
      MultisetCons(s);
      if p(s[0]) {
        MultisetCons(Select(s, p, true));
        assert Select(s, p, true)[1..] == Select(t, p, true);
      } else {
        MultisetCons(Select(s, p, false));
        assert Select(s, p, false)[1..] == Select(t, p, false);
      }
    }
  }

  lemma MultisetCons<T>(s: seq<T>)
    requires |s| > 0
    ensures multiset(s) == multiset{s[0]} + multiset(s[1..])
  {
    assert s == [s[0]] + s[1..];
  }

  lemma {:induction false} ReversePermutes<T>(s: seq<T>)
    ensures multiset(Reverse(s)) == multiset(s)
    decreases |s|
  {
    if |s| > 0 {
      ReversePermutes(s[1..]);
      assert s == [s[0]] + s[1..];
    }
  }

  /** spliceBy moves every element of the array to exactly one of its two outputs. */
  lemma SpliceByPartitions<T>(a: seq<T>, cond: T -> bool)
    ensures multiset(SpliceBy(a, cond).kept) + multiset(SpliceBy(a, cond).removed) == multiset(a)
  {
    SelectPartition(a, cond);
    ReversePermutes(Select(a, cond, true));
  }

  /** A second pass with the same condition finds nothing more to remove. */
  lemma SpliceByIdempotent<T>(a: seq<T>, cond: T -> bool)
    ensures SpliceBy(SpliceBy(a, cond).kept, cond) == Spliced(SpliceBy(a, cond).kept, [])
  {
    SelectStable(a, cond, false);
    SelectNone(Select(a, cond, false), cond);
  }

  /** An element survives the selection exactly when it was there and `p` answers `want` on it. */
  lemma {:induction false} SelectMember<T>(s: seq<T>, p: T -> bool, want: bool, x: T)
    ensures x in Select(s, p, want) <==> x in s && p(x) == want
    decreases |s|
  {
    if |s| > 0 {
      SelectMember(s[1..], p, want, x);
      assert s == [s[0]] + s[1..];
    }
  }

  lemma {:induction false} SelectStable<T>(s: seq<T>, p: T -> bool, want: bool)
    ensures Select(Select(s, p, want), p, want) == Select(s, p, want)
    decreases |s|
  {
    if |s| > 0 {
      SelectStable(s[1..], p, want);
      var t := Select(s[1..], p, want);
      if p(s[0]) == want {
        assert Select(s, p, want) == [s[0]] + t;
        assert ([s[0]] + t)[1..] == t;
      } else {
        assert Select(s, p, want) == t;
      }
    }
  }

  lemma {:induction false} SelectNone<T>(s: seq<T>, p: T -> bool)
    requires forall i :: 0 <= i < |s| ==> !p(s[i])
    ensures Select(s, p, true) == []
    decreases |s|
  {
    if |s| > 0 {
      SelectNone(s[1..], p);
    }
  }
}
